=== FILE: README.md ===
# Financial statement extraction, modelled in Dafny

This project models the extraction pipeline in `backend/core/views.py`. The pipeline turns the text of a
PDF financial statement into two fields: total revenue (`revenue`) and cost of sales (`cos`). It has four stages:

1. **Page join** (`extract_text_from_pdf`). Every page that yields text contributes that text followed by a
   newline, in page order (module `PageText`).
2. **Normalisation** (first statement of `extract_financial_values`). Line feeds and carriage returns become
   spaces (module `Normalizer`).
3. **Pattern-table search** (`extract_value_with_patterns`). The patterns are tried in table order. For each
   one, only the last group of its *first* match is kept and cleaned. The first pattern whose first match
   cleans to a number wins, and `""` means nothing was found.
   - Module `Selection` states this rule over abstract matchers.
   - Module `Patterns` gives a concrete matcher for the one pattern shape both tables use: a
     case-insensitive keyword phrase, then the amount capture `([0-9,]+(?:\([0-9,]+\))?)`.
   - Module `Extraction` holds the two seven-pattern tables and `extract_financial_values`.
4. **Cleaning** (`clean_financial_value`). The cleaner removes `$` and spaces and turns `(x)` into `-x`. It
   then removes commas and keeps the result only if it parses as a number (module `Cleaner`).

Module `Strings` holds the one-character forms of `str.replace` that the code uses. Module `Scenarios`
restates the unit tests of `backend/tests/unit/test_pdf_parser.py` that concern page joining, cleaning and the
pattern search (lines 14-101) as lemmas about the model. Two tests in that range have no lemma of their own.
The PDF-error test (lines 28-34) is left out with the PDF library. The empty-string assertion (line 55) is the
first ensures of `Cleaner.Clean`. The end-to-end tests are listed under "## Left out".

Points where the code behaves differently from what its tests or callers expect:

- **Only two keys.** `extract_financial_values` returns only `revenue` and `cos`. The unit tests also read an
  `operating_income` key (test_pdf_parser.py lines 120, 134, 149, 164, 174 and 221). So do the frontend's
  result types (`frontend/src/components/ResultsGrid.tsx` line 6 and `frontend/src/App.tsx` line 9). No code
  computes that key.
- **Extracted fields are never negative.** The amount capture's optional parenthesised suffix turns the capture
  into `1,234(5)`, and that never cleans to a number (`Cleaner.CleanRejectsParenSuffix`). A match that includes
  the suffix therefore offers nothing, and every extracted field is a run of digits or `""`
  (`Extraction.PatternTableYieldsWholeNumbers`). The negative-number handling of the cleaner is reachable only
  through direct calls, as in the cleaner's own tests.

Other behaviour worth noting:

- **A leading `+` survives.** The cleaner keeps a leading `+`: `+5` cleans to `+5`.
- **A run of commas only.** A capture made only of commas, such as `,,`, cleans to `""`. The pattern is then
  skipped, as if it had not matched.

## Model

| member | source | states |
|---|---|---|
| PageText.ExtractText | backend/core/views.py:65-78 | The accumulation loop yields the reference join: each page with text, followed by a newline, in page order. Empty pages contribute nothing. |
| PageText.JoinPagesAppend | backend/core/views.py:70-73 | Joining two runs of pages gives the concatenation of their joins. |
| PageText.JoinPagesLength | backend/core/views.py:70-73 | The text's length is the sum of the page lengths plus one newline per non-empty page. |
| PageText.EmptyPageContributesNothing | backend/core/views.py:72-73 | Inserting or removing an empty page anywhere leaves the text unchanged. |
| PageText.JoinPagesEmptyIff | backend/core/views.py:67-78 | The text is empty exactly when every page is empty. Otherwise it ends with a newline. |
| Normalizer.Normalize | backend/core/views.py:85 | Length is kept and no line break remains. Each `\n` or `\r` becomes a space and every other character is unchanged. |
| Normalizer.NormalizeFixesBreakFree | backend/core/views.py:85 | Text without line breaks is left as it is. |
| Normalizer.NormalizeIdempotent | backend/core/views.py:85 | Normalising twice is the same as normalising once. |
| Normalizer.NormalizeAppend | backend/core/views.py:85 | Normalisation distributes over concatenation. |
| Normalizer.NormalizeJoinedPages | backend/core/views.py:65-85 | After normalisation, the newline after each non-empty page is a single space, so page boundaries become word boundaries. |
| Cleaner.Clean | backend/core/views.py:150-175 | Empty input gives `""`. The result is `""` or a number, and never contains `$`, a space or a comma. |
| Cleaner.CleanPreservesDigits | backend/core/views.py:160-168 | A successful clean keeps exactly the input's digits, in order. |
| Cleaner.CleanFixesDecimals | backend/core/views.py:150-175 | A value already in canonical numeric form cleans to itself. |
| Cleaner.CleanIdempotent | backend/core/views.py:150-175 | Cleaning a cleaned value changes nothing. |
| Cleaner.GroupedShape | backend/core/views.py:167-168 | Thousands grouping is a digit-and-comma run, and deleting its commas restores the digits. |
| Cleaner.CleanRender | backend/core/views.py:150-175 | Round trip: every printed form of a whole amount cleans back to its digits. The printed forms are plain, `$`, `$ `, `(…)`, `$(…)` and `-$`; the negative forms get a leading `-`. |
| Cleaner.CleanRenderFraction | backend/core/views.py:150-175 | Round trip for amounts with a fractional part, in the same six printed forms. The decimal point and every fractional digit survive, the separators do not, and the negative forms get a leading `-`. |
| Cleaner.CleanParenthesized | backend/core/views.py:163-165 | For any value that cleans to an unsigned number, `(v)` cleans to `-` followed by `v`'s clean value. |
| Cleaner.CleanParenthesizedSigned | backend/core/views.py:163-175 | For a value that already cleans to a signed number, `(v)` cleans to `""`, because the candidate then starts with `--`, `-+` or `-(` and does not parse. |
| Cleaner.CleanDigitRun | backend/core/views.py:167-175 | A captured digit-and-comma run cleans to exactly its digits. |
| Cleaner.CleanRejectsParenSuffix | backend/core/views.py:163-175 | A run followed by a parenthesised run, as the amount capture's suffix produces, never cleans to a number. |
| Cleaner.CleanRejectsForeign | backend/core/views.py:160-175 | Garbage is rejected, not repaired. A value holding any character other than a digit, `+`, `-`, `.`, `$`, a comma, a parenthesis or the space cleans to `""`, for example `1a2` or `N/A`. The character survives every replacement and `float` rejects it. The few such characters that `float` does accept are listed under "## Left out". |
| Cleaner.CleanRejectsTwoPoints | backend/core/views.py:160-175 | A value with two decimal points, such as `1.2.3`, cleans to `""`. No replacement removes a point, and `float` accepts at most one. |
| Selection.Offer | backend/core/views.py:132-142 | What one pattern offers is `""` or a number. It comes from the first match only (see `LaterMatchesIgnored`). |
| Selection.FirstOffer | backend/core/views.py:131-148 | The result is `""` exactly when every pattern offers nothing. Otherwise it is the offer of the first pattern that offers a value. |
| Selection.ExtractValue | backend/core/views.py:127-148 | The value is the first non-empty offer in table order, and it is `""` or a number. |
| Selection.ExtractValueWithPatterns | backend/core/views.py:127-148 | The loop with its early return computes the first-success value. |
| Selection.ExtractValueAt | backend/core/views.py:131-145 | If every earlier pattern offers nothing and pattern `k` offers a value, that value is returned. |
| Selection.ExtractValueAppend | backend/core/views.py:131-148 | A later part of the table is consulted only when the earlier part yields nothing. |
| Selection.LaterMatchesIgnored | backend/core/views.py:133-140 | Discarding every match but the first of each pattern does not change the result. |
| Patterns.SkipRunEnds | backend/core/views.py:96 | The greedy repetition of a character class stops exactly at the end of the maximal run. |
| Patterns.MatchAmount | backend/core/views.py:90 | A capture exists exactly when a digit or comma follows. It always has the shape of the amount group. Where it ends is fixed by `MatchAmountRun` and `MatchAmountSuffix`. |
| Patterns.MatchAt | backend/core/views.py:104 | A match's capture lies within the text. A `^`-anchored pattern matches only at offset 0. |
| Patterns.MatchAmountRun | backend/core/views.py:90 | A maximal digit run that no closed parenthesised run follows is captured whole. That includes a `(` whose run is empty or never closed. |
| Patterns.MatchAmountSuffix | backend/core/views.py:90 | A maximal digit run followed by `(`, a non-empty digit run and `)` is captured together with that suffix, up to and including the `)`. |
| Patterns.MatchLeadSteps | backend/core/views.py:90 | The keyword phrase matches element by element: its elements' consecutive spans compose into the phrase's span. |
| Patterns.FindAll | backend/core/views.py:132 | The result is non-empty exactly when the pattern matches somewhere. Its first item is the capture of the leftmost match. |
| Patterns.FindAllCaptures | backend/core/views.py:132 | Every item `re.findall` returns has the shape of the amount group. |
| Patterns.AnchoredMatchesOnce | backend/core/views.py:104 | A pattern anchored by `^` matches at most once. |
| Patterns.OfferOfPattern | backend/core/views.py:132-142 | A concrete pattern offers either nothing or a whole number's digits. |
| Patterns.MatchNeedsKeyword | backend/core/views.py:132 | A pattern that opens with a word matches only where the word's first letter occurs, ignoring case. |
| Patterns.NoOfferWithoutKeyword | backend/core/views.py:132-133 | A pattern whose keyword cannot start anywhere in the text finds nothing and offers nothing. |
| Patterns.NoMatchInEmptyText | backend/core/views.py:132 | No pattern finds anything in the empty text. |
| Extraction.CosPatternsOpenWithCost | backend/core/views.py:102-114 | Every cost-of-sales pattern opens with the keyword `cost`. |
| Extraction.TableValueAt | backend/core/views.py:117-120 | Over a table of concrete patterns, the value comes from the first pattern that offers one. |
| Extraction.PatternTableYieldsWholeNumbers | backend/core/views.py:88-148 | Over any table of concrete patterns, the extracted value is `""` or a whole number without sign or separators. |
| Extraction.PatternTableEmptyText | backend/core/views.py:127-148 | Over any table of concrete patterns, nothing is found in the empty text. |
| Extraction.ExtractFinancialValues | backend/core/views.py:80-125 | Both fields are `""` or whole numbers, and the empty text yields two empty fields. |
| Extraction.ExtractionIgnoresLineBreaks | backend/core/views.py:85 | Extracting from the text or from its normal form gives the same fields. |
| Scenarios.TwoPagesJoined | backend/tests/unit/test_pdf_parser.py:14-25 | Two pages join as `Page 1 content\nPage 2 content\n`. |
| Scenarios.CleanDollar | backend/tests/unit/test_pdf_parser.py:42 | `$1,234,567` cleans to `1234567`. |
| Scenarios.CleanGroupedOnly | backend/tests/unit/test_pdf_parser.py:43 | `1,234,567` cleans to `1234567`. |
| Scenarios.CleanCanonical | backend/tests/unit/test_pdf_parser.py:44 | `1234567` cleans to itself. |
| Scenarios.CleanDollarSpace | backend/tests/unit/test_pdf_parser.py:45 | `$ 1,234,567` cleans to `1234567`. |
| Scenarios.CleanDollarParens | backend/tests/unit/test_pdf_parser.py:49 | `$(1,234,567)` cleans to `-1234567`. |
| Scenarios.CleanParens | backend/tests/unit/test_pdf_parser.py:50 | `(1,234,567)` cleans to `-1234567`. |
| Scenarios.CleanMinusDollar | backend/tests/unit/test_pdf_parser.py:51 | `-$1,234,567` cleans to `-1234567`. |
| Scenarios.CleanNotAvailable | backend/tests/unit/test_pdf_parser.py:56 | `N/A` cleans to `""`. |
| Scenarios.CleanZero | backend/tests/unit/test_pdf_parser.py:57 | `$0` cleans to `0`. |
| Scenarios.CleanNegativeZero | backend/tests/unit/test_pdf_parser.py:58 | `$(0)` cleans to `-0`. |
| Scenarios.LastGroupUsed | backend/core/views.py:135-137 | A match with several groups contributes its last group. |
| Scenarios.FirstMatchOnly | backend/core/views.py:131-145 | A pattern whose first match does not clean is skipped, even when a later match of the same pattern would clean. The next pattern supplies the value. |
| Scenarios.QualifiedRevenueAbsent | backend/core/views.py:90-94 | In `Revenue: $1,234,567` the `total`, plural and `consolidated` revenue patterns offer nothing. |
| Scenarios.GenericRevenueOffer | backend/core/views.py:96 | In `Revenue: $1,234,567` the pattern `revenue[:\s]*\$?` offers `1234567`. |
| Scenarios.NoCostWithoutC | backend/core/views.py:102-120 | A text without the letter `c` yields no cost of sales. |
| Scenarios.TotalRevenuesFound | backend/tests/unit/test_pdf_parser.py:64-71 | `Total revenues $1,234,567 and other income` yields `1234567` from the `total revenues` pattern. |
| Scenarios.NoFinancialData | backend/tests/unit/test_pdf_parser.py:85-92 | `No financial data here` yields `""` from the generic revenue pattern. |
| Scenarios.OperatingLossCapture | backend/tests/unit/test_pdf_parser.py:94-101 | A pattern whose capture is the `123,456` inside `$(123,456)` yields the unsigned `123456`. |
| Scenarios.SecondPatternSupplies | backend/tests/unit/test_pdf_parser.py:73-83 | With the `total revenues` pattern first and the generic one second, `Revenue: $1,234,567` yields `1234567` from the second. |
| Scenarios.GenericRevenueLabel | backend/core/views.py:80-125 | The full extraction of `Revenue: $1,234,567` gives revenue `1234567` and no cost of sales. |

## Left out

- The HTTP view `extract_financial_data` (lines 12-63) is not modelled. It covers the upload checks, the `.pdf` suffix check, date validation, the default period end date and the error responses, none of which is part of the extraction core.
- The PDF library is not modelled. A page is represented by the text it yields, and a page yielding `None` is written as `""`. A failure while reading the PDF, which is logged and re-raised (lines 74-76), is left out.
- Logging is left out (lines 144 and 147). The `field_name` argument is used only in log messages, so it is dropped.
- Cleaner.Clean: Python's `float()` is approximated by `IsDecimal`, meaning an optional sign, then ASCII digits with at most one decimal point and at least one digit. `float()` also accepts exponents, `inf`, `nan` and underscores between digits. It also accepts non-ASCII decimal digits such as Arabic-Indic ones, and surrounding whitespace other than the space (tab, newline, vertical tab, form feed, no-break space and the other Unicode spaces). Those inputs clean to `""` here but survive in Python. The captures of the extraction patterns contain only digits, commas and parentheses, so the extraction result is unaffected.
- Cleaner.CleanRejectsForeign: the lemma is stated about this reading of `float()`. It therefore also rejects `e`, `_`, the letters of `inf` and `nan`, non-ASCII digits and whitespace other than the space. Python keeps a value made of those characters when it forms a number, such as `1e5`.
- Patterns.SameIgnoringCase: `re.IGNORECASE` is modelled for ASCII letters only. Python also folds a few non-ASCII letters onto ASCII ones, for example the Kelvin sign onto `k` and the long s onto `s`.
- Patterns.FindAll: the matcher is a leftmost-greedy reading of the keyword phrase without backtracking, not a general regular-expression engine. It agrees with Python's engine on the fourteen table patterns because every optional or repeated element is followed only by something it cannot itself consume. That argument is made in the module comment, not proved.
- The pattern of the negative-value unit test, `operating\s+loss[:\s]*\$?\(([0-9,]+)\)` (test lines 94-101), has a `\(` before its group, which is outside the concrete element language. `Scenarios.OperatingLossCapture` gives it as the constant matcher of the capture it makes on the test's text.
- The patterns of the other pattern-search tests (test lines 67, 77-78 and 88) lack the table patterns' parenthesised suffix. The scenarios use the table patterns, which capture the same text there because no `(` follows the digits.
- The end-to-end tests of `extract_financial_values` (test lines 107-221) are not restated as lemmas. Six of their assertions concern `operating_income`, which the code does not produce. The lemmas about the pattern tables hold for those texts as for any other.
- Integer width does not arise: the values stay strings throughout, as in the code.

=== FILE: cleaner.dfy ===
/** The value cleaner (backend/core/views.py, `clean_financial_value`): turns a
    captured literal such as `$ (1,234,567)` into a canonical numeric string such
    as `-1234567`, or into `""` when the result would not parse as a number. */
module Cleaner {
  import opened Strings

  /** Digits with at most one decimal point and at least one digit:
      `12`, `12.`, `.5`, `12.50`. */
  predicate IsUnsignedDecimal(s: string) {
    if '.' in s then
      && |s| > 1
      && exists k | 0 <= k < |s| && s[k] == '.' :: AllDigits(s[..k]) && AllDigits(s[k + 1..])
    else |s| > 0 && AllDigits(s)
  }

  predicate IsSign(c: char) {
    c == '-' || c == '+'
  }

  /** The strings accepted here as numbers, standing for Python's `float()`:
      an optional sign followed by an unsigned decimal. */
  predicate IsDecimal(s: string) {
    if |s| > 0 && IsSign(s[0]) then IsUnsignedDecimal(s[1..]) else IsUnsignedDecimal(s)
  }

  lemma UnsignedDecimalChars(s: string)
    requires IsUnsignedDecimal(s)
    ensures |s| > 0
    ensures forall i | 0 <= i < |s| :: IsDigit(s[i]) || s[i] == '.'
  {
    if '.' in s {
      var k :| 0 <= k < |s| && s[k] == '.' && AllDigits(s[..k]) && AllDigits(s[k + 1..]);
      forall i | 0 <= i < |s|
        ensures IsDigit(s[i]) || s[i] == '.'
      {
        if i < k {
          assert s[i] == s[..k][i];
        } else if i > k {
          assert s[i] == s[k + 1..][i - k - 1];
        }
      }
    }
  }

  /** A decimal contains no currency symbol, space or thousands separator, and
      no parenthesis. */
  lemma DecimalHasNoDecoration(s: string)
    requires IsDecimal(s)
    ensures |s| > 0
    ensures '$' !in s && ' ' !in s && ',' !in s && '(' !in s && ')' !in s
  {
    var body := if |s| > 0 && IsSign(s[0]) then s[1..] else s;
    UnsignedDecimalChars(body);
    assert forall i | 0 <= i < |s| :: IsDigit(s[i]) || s[i] == '.' || (i == 0 && IsSign(s[i])) by {
      if |s| > 0 && IsSign(s[0]) {
        assert forall i | 1 <= i < |s| :: s[i] == body[i - 1];
      }
    }
  }

  /** Accounting convention for negatives: the whole string inside one pair of parentheses. */
  predicate IsParenthesized(s: string) {
    |s| > 0 && s[0] == '(' && s[|s| - 1] == ')'
  }

  /** The string left once `$` signs and spaces are removed. */
  function StripCurrency(value: string): string {
    DeleteChar(DeleteChar(value, '$'), ' ')
  }

  /** `(x)` becomes `-x`; anything else is kept. */
  function ApplyParenSign(s: string): string {
    if IsParenthesized(s) then "-" + s[1..|s| - 1] else s
  }

  /** The string handed to the number parser: currency and spaces stripped,
      the parenthesis convention applied, thousands separators removed. */
  function Unformat(value: string): string {
    DeleteChar(ApplyParenSign(StripCurrency(value)), ',')
  }

  function Clean(value: string): (r: string)
    ensures value == "" ==> r == ""
    ensures r == "" || IsDecimal(r)
    ensures '$' !in r && ' ' !in r && ',' !in r
  {
    if value == "" then ""
    else
      var plain := Unformat(value);
      if IsDecimal(plain) then
        DecimalHasNoDecoration(plain);
        plain
      else ""
  }

  /** Cleaning never invents, drops or reorders a digit. */
  lemma CleanPreservesDigits(value: string)
    requires Clean(value) != ""
    ensures Digits(Clean(value)) == Digits(value)
  {
    var s1 := DeleteChar(value, '$');
    var stripped := DeleteChar(s1, ' ');
    DigitsDeleteChar(value, '$');
    DigitsDeleteChar(s1, ' ');
    var signed := ApplyParenSign(stripped);
    if IsParenthesized(stripped) {
      SignedDigits(stripped);
    }
    DigitsDeleteChar(signed, ',');
    assert Clean(value) == DeleteChar(signed, ',');
  }

  lemma SignedDigits(s: string)
    requires IsParenthesized(s)
    ensures Digits(ApplyParenSign(s)) == Digits(s)
  {
    var mid := s[1..|s| - 1];
    assert s == "(" + mid + ")";
    assert Digits("(") == "" && Digits(")") == "" && Digits("-") == "";
    DigitsAppend("(" + mid, ")");
    DigitsAppend("(", mid);
    DigitsAppend("-", mid);
  }

  /** A canonical value is a fixed point of the cleaner. */
  lemma CleanFixesDecimals(s: string)
    requires IsDecimal(s)
    ensures Clean(s) == s
  {
    DecimalHasNoDecoration(s);
  }

  lemma CleanIdempotent(value: string)
    ensures Clean(Clean(value)) == Clean(value)
  {
    if Clean(value) != "" {
      CleanFixesDecimals(Clean(value));
    }
  }

  // ---------------------------------------------------------------------
  // The formats a statement prints a whole-number amount in, and the
  // digit runs the extraction patterns capture.

  /** Thousands separators inserted every three digits from the right. */
  function Grouped(d: string): string
    decreases |d|
  {
    if |d| <= 3 then d else Grouped(d[..|d| - 3]) + "," + d[|d| - 3..]
  }

  /** A run of digits and commas, the class `[0-9,]+` of the extraction patterns. */
  predicate IsDigitRun(s: string) {
    |s| > 0 && forall i | 0 <= i < |s| :: IsDigit(s[i]) || s[i] == ','
  }

  /** Two runs joined by a separator form one run. */
  lemma CommaJoinedRun(a: string, b: string)
    requires IsDigitRun(a) && AllDigits(b)
    ensures IsDigitRun(a + "," + b) && (a + "," + b)[0] == a[0]
  {
    var g := a + "," + b;
    forall i | 0 <= i < |g|
      ensures IsDigit(g[i]) || g[i] == ','
    {
      if i < |a| {
        assert g[i] == a[i];
      } else if i > |a| {
        assert g[i] == b[i - |a| - 1];
      }
    }
  }

  lemma {:induction false} GroupedShape(d: string)
    requires |d| > 0 && AllDigits(d)
    ensures IsDigitRun(Grouped(d)) && Grouped(d)[0] == d[0]
    ensures DeleteChar(Grouped(d), ',') == d
    decreases |d|
  {
    if |d| > 3 {
      var hi, lo := d[..|d| - 3], d[|d| - 3..];
      assert d == hi + lo;
      GroupedShape(hi);
      var gh := Grouped(hi);
      assert Grouped(d) == gh + "," + lo;
      CommaJoinedRun(gh, lo);
      assert ',' !in lo by {
        assert forall i | 0 <= i < |lo| :: lo[i] == d[|d| - 3 + i];
      }
      calc {
        DeleteChar(gh + "," + lo, ',');
        { DeleteCharAppend(gh + ",", lo, ','); }
        DeleteChar(gh + ",", ',') + DeleteChar(lo, ',');
        { DeleteCharAppend(gh, ",", ','); }
        DeleteChar(gh, ',') + DeleteChar(",", ',') + lo;
        { assert DeleteChar(",", ',') == ""; }
        hi + lo;
      }
    }
  }

  datatype Style =
    | Plain          // 1,234,567
    | Dollar         // $1,234,567
    | DollarSpace    // $ 1,234,567
    | Parens         // (1,234,567)
    | DollarParens   // $(1,234,567)
    | MinusDollar    // -$1,234,567

  predicate IsNegativeStyle(style: Style) {
    style.Parens? || style.DollarParens? || style.MinusDollar?
  }

  function Prefix(style: Style): string {
    match style
    case Plain => ""
    case Dollar => "$"
    case DollarSpace => "$ "
    case Parens => "("
    case DollarParens => "$("
    case MinusDollar => "-$"
  }

  function Suffix(style: Style): string {
    if style.Parens? || style.DollarParens? then ")" else ""
  }

  /** A whole amount `d` (digits only) as a statement prints it. */
  function Render(d: string, style: Style): string {
    Prefix(style) + Grouped(d) + Suffix(style)
  }

  /** Digits, thousands separators and decimal points: the body of a printed amount. */
  predicate IsNumeral(g: string) {
    |g| > 0 && forall i | 0 <= i < |g| :: IsDigit(g[i]) || g[i] == ',' || g[i] == '.'
  }

  lemma RunHasNoCurrency(g: string)
    requires IsNumeral(g)
    ensures StripCurrency(g) == g
  {
    assert '$' !in g;
    assert ' ' !in g;
  }

  /** What is left of the prefix once currency symbols and spaces are stripped. */
  function BarePrefix(style: Style): string {
    match style
    case Parens | DollarParens => "("
    case MinusDollar => "-"
    case _ => ""
  }

  /** The rendered form of grouped digits `g` without currency symbol and spaces. */
  function Bare(g: string, style: Style): string {
    BarePrefix(style) + g + Suffix(style)
  }

  lemma StripPrefix(style: Style)
    ensures StripCurrency(Prefix(style)) == BarePrefix(style)
  {
    match style
    case Plain =>
    case Dollar =>
      assert DeleteChar("$", '$') == "";
    case DollarSpace =>
      assert DeleteChar("$ ", '$') == " ";
      assert DeleteChar(" ", ' ') == "";
    case Parens =>
    case DollarParens =>
      assert DeleteChar("$(", '$') == "(";
    case MinusDollar =>
      assert DeleteChar("-$", '$') == "-";
  }

  /** What is left of a decorated digit run once currency symbols and spaces are stripped. */
  lemma StripDecorated(g: string, style: Style)
    requires IsNumeral(g)
    ensures StripCurrency(Prefix(style) + g + Suffix(style)) == Bare(g, style)
  {
    StripAroundRun(Prefix(style), g, Suffix(style));
    StripPrefix(style);
    assert StripCurrency(Suffix(style)) == Suffix(style);
  }

  /** The sign a printed form carries: `-` for the negative forms. */
  function SignOf(style: Style): string {
    if IsNegativeStyle(style) then "-" else ""
  }

  lemma ParenSignOfBare(g: string, style: Style)
    requires IsNumeral(g)
    ensures ApplyParenSign(Bare(g, style)) == SignOf(style) + g
  {
    var b := Bare(g, style);
    if style.Parens? || style.DollarParens? {
      assert b == "(" + g + ")";
      assert b[1..|b| - 1] == g;
    } else {
      assert b == BarePrefix(style) + g;
      assert !IsParenthesized(b) by {
        if |BarePrefix(style)| == 0 {
          assert b == g && ')' !in g;
          assert b[|b| - 1] in g;
        }
      }
    }
  }

  lemma SignedDigitsAreDecimal(sign: string, d: string)
    requires sign == "" || sign == "-"
    requires |d| > 0 && AllDigits(d)
    ensures IsDecimal(sign + d)
  {
    assert '.' !in d;
    if sign == "-" {
      assert (sign + d)[1..] == d;
    } else {
      assert sign + d == d;
      assert !IsSign(d[0]);
    }
  }

  /** Round trip: every printed form of a whole amount cleans back to its
      digits, negative forms with a leading minus sign. */
  lemma CleanRender(d: string, style: Style)
    requires |d| > 0 && AllDigits(d)
    ensures Clean(Render(d, style)) == SignOf(style) + d
  {
    var g := Grouped(d);
    GroupedShape(d);
    StripDecorated(g, style);
    ParenSignOfBare(g, style);
    var sign := SignOf(style);
    assert ',' !in sign;
    DeleteCharAppend(sign, g, ',');
    var plain := sign + d;
    assert Unformat(Render(d, style)) == plain;
    SignedDigitsAreDecimal(sign, d);
    assert Render(d, style) != "" by {
      assert |Render(d, style)| >= |g| > 0;
    }
  }

  /** The digits of a fractional amount as printed: grouped whole part,
      decimal point, fractional digits. */
  function FractionNumeral(d: string, f: string): string {
    Grouped(d) + ("." + f)
  }

  /** A whole amount `d` with fractional digits `f`, as a statement prints it:
      `$(1,234.50)` for `d = "1234"`, `f = "50"`. */
  function RenderFraction(d: string, f: string, style: Style): string {
    Prefix(style) + FractionNumeral(d, f) + Suffix(style)
  }

  lemma FractionIsNumeral(g: string, f: string)
    requires IsDigitRun(g) && AllDigits(f)
    ensures IsNumeral(g + ("." + f))
  {
    var n := g + ("." + f);
    forall i | 0 <= i < |n|
      ensures IsDigit(n[i]) || n[i] == ',' || n[i] == '.'
    {
      if i < |g| {
        assert n[i] == g[i];
      } else if i > |g| {
        assert n[i] == f[i - |g| - 1];
      }
    }
  }

  lemma FractionIsUnsignedDecimal(d: string, f: string)
    requires |d| > 0 && AllDigits(d) && AllDigits(f)
    ensures IsUnsignedDecimal(d + ("." + f))
  {
    var u := d + ("." + f);
    var k := |d|;
    assert u[k] == '.';
    assert u[..k] == d;
    assert u[k + 1..] == f;
    assert AllDigits(u[..k]) && AllDigits(u[k + 1..]);
  }

  /** A minus sign, or none, before an unsigned decimal that opens with a digit. */
  lemma SignedUnsignedIsDecimal(sign: string, u: string)
    requires sign == "" || sign == "-"
    requires IsUnsignedDecimal(u) && |u| > 0 && IsDigit(u[0])
    ensures IsDecimal(sign + u)
  {
    var w := sign + u;
    if sign == "-" {
      assert w[0] == '-';
      assert w[1..] == u;
    } else {
      assert w == u;
    }
  }

  /** Round trip for amounts with a fractional part: the decimal point and
      every fractional digit survive, the thousands separators do not, and
      the negative forms get a leading minus sign. */
  lemma CleanRenderFraction(d: string, f: string, style: Style)
    requires |d| > 0 && AllDigits(d) && AllDigits(f)
    ensures Clean(RenderFraction(d, f, style)) == SignOf(style) + (d + ("." + f))
  {
    var gd := Grouped(d);
    GroupedShape(d);
    var tail := "." + f;
    var g := gd + tail;
    FractionIsNumeral(gd, f);
    StripDecorated(g, style);
    ParenSignOfBare(g, style);
    var sign := SignOf(style);
    assert ',' !in sign;
    assert ',' !in tail;
    DeleteCharAppend(gd, tail, ',');
    DeleteCharAppend(sign, g, ',');
    var u := d + tail;
    assert Unformat(RenderFraction(d, f, style)) == sign + u;
    FractionIsUnsignedDecimal(d, f);
    assert u[0] == d[0];
    SignedUnsignedIsDecimal(sign, u);
    assert RenderFraction(d, f, style) != "" by {
      assert |RenderFraction(d, f, style)| >= |g| > 0;
    }
  }

  lemma StripCurrencyAppend(a: string, b: string)
    ensures StripCurrency(a + b) == StripCurrency(a) + StripCurrency(b)
  {
    DeleteCharAppend(a, b, '$');
    DeleteCharAppend(DeleteChar(a, '$'), DeleteChar(b, '$'), ' ');
  }

  /** The candidate string of `(v)`: a minus sign, then `v`'s stripped text
      without its separators. */
  lemma UnformatParenthesized(v: string)
    ensures Unformat("(" + v + ")") == "-" + DeleteChar(StripCurrency(v), ',')
  {
    var w := "(" + v + ")";
    var sv := StripCurrency(v);
    StripCurrencyAppend("(" + v, ")");
    StripCurrencyAppend("(", v);
    assert StripCurrency("(") == "(" && StripCurrency(")") == ")";
    var t := "(" + sv + ")";
    assert StripCurrency(w) == t;
    assert t[1..|t| - 1] == sv;
    assert ApplyParenSign(t) == "-" + sv;
    DeleteCharAppend("-", sv, ',');
    assert DeleteChar("-", ',') == "-";
  }

  /** The accounting convention on any cleanable unsigned value: `(v)` cleans
      to `v`'s clean value with a minus sign. */
  lemma CleanParenthesized(v: string)
    requires Clean(v) != "" && !IsSign(Clean(v)[0])
    ensures Clean("(" + v + ")") == "-" + Clean(v)
  {
    var sv := StripCurrency(v);
    var c := Clean(v);
    UnformatParenthesized(v);
    if IsParenthesized(sv) {
      var inner := sv[1..|sv| - 1];
      DeleteCharAppend("-", inner, ',');
      assert false;
    }
    assert c == DeleteChar(sv, ',');
    assert IsUnsignedDecimal(c);
    assert ("-" + c)[1..] == c;
  }

  /** A value that already cleans to a signed number cannot be parenthesised:
      `(-5)` gives `--5`, which does not parse. */
  lemma CleanParenthesizedSigned(v: string)
    requires Clean(v) != "" && IsSign(Clean(v)[0])
    ensures Clean("(" + v + ")") == ""
  {
    var sv := StripCurrency(v);
    var x := DeleteChar(sv, ',');
    UnformatParenthesized(v);
    assert sv != "";
    if IsParenthesized(sv) {
      assert x == [sv[0]] + DeleteChar(sv[1..], ',');
    } else {
      assert x == Clean(v);
    }
    assert |x| > 0 && !IsDigit(x[0]) && x[0] != '.';
    if IsDecimal("-" + x) {
      assert ("-" + x)[1..] == x;
      UnsignedDecimalChars(x);
      assert false;
    }
  }

  lemma StripAroundRun(pre: string, g: string, post: string)
    requires IsNumeral(g)
    ensures StripCurrency(pre + g + post) == StripCurrency(pre) + g + StripCurrency(post)
  {
    RunHasNoCurrency(g);
    DeleteCharAppend(pre + g, post, '$');
    DeleteCharAppend(pre, g, '$');
    DeleteCharAppend(DeleteChar(pre, '$') + g, DeleteChar(post, '$'), ' ');
    DeleteCharAppend(DeleteChar(pre, '$'), g, ' ');
  }

  /** A digit run with its thousands separators removed is all digits. */
  lemma DigitRunWithoutCommas(s: string)
    requires IsDigitRun(s)
    ensures AllDigits(DeleteChar(s, ','))
  {
    var plain := DeleteChar(s, ',');
    forall i | 0 <= i < |plain|
      ensures IsDigit(plain[i])
    {
      assert plain[i] in plain;
    }
  }

  /** A captured digit run cleans to exactly its digits (`""` when it holds no digit). */
  lemma CleanDigitRun(s: string)
    requires IsDigitRun(s)
    ensures Clean(s) == Digits(s)
  {
    RunHasNoCurrency(s);
    assert !IsParenthesized(s);
    var plain := DeleteChar(s, ',');
    assert Unformat(s) == plain;
    DigitRunWithoutCommas(s);
    DigitsDeleteChar(s, ',');
    if |plain| > 0 {
      SignedDigitsAreDecimal("", plain);
      assert "" + plain == plain;
    }
  }

  /** Every character of a decimal is a digit, the decimal point or a sign. */
  lemma DecimalChars(s: string)
    ensures IsDecimal(s) ==> forall k | 0 <= k < |s| :: IsDigit(s[k]) || s[k] == '.' || IsSign(s[k])
  {
    if IsDecimal(s) {
      var body := if |s| > 0 && IsSign(s[0]) then s[1..] else s;
      UnsignedDecimalChars(body);
      if |s| > 0 && IsSign(s[0]) {
        assert forall k | 1 <= k < |s| :: s[k] == body[k - 1];
      }
    }
  }

  /** The parenthesis convention keeps every character but the parentheses. */
  lemma ParenSignKeepsChar(s: string, c: char)
    requires c in s && c != '(' && c != ')'
    ensures c in ApplyParenSign(s)
  {
    if IsParenthesized(s) {
      var mid := s[1..|s| - 1];
      assert s == "(" + mid + ")";
      assert c in mid;
    }
  }

  /** Garbage is rejected, not repaired: a character that is not a digit and none of
      `+ - . $ , ( )` or the space survives into the candidate handed to `float`,
      which `IsDecimal` then rejects, so the value cleans to `""`. */
  lemma CleanRejectsForeign(v: string, i: nat)
    requires i < |v| && !IsDigit(v[i]) && v[i] !in "+-.$ ,()"
    ensures Clean(v) == ""
  {
    var c := v[i];
    var stripped := StripCurrency(v);
    assert c in DeleteChar(v, '$');
    assert c in stripped;
    ParenSignKeepsChar(stripped, c);
    var plain := DeleteChar(ApplyParenSign(stripped), ',');
    assert c in plain;
    DecimalChars(plain);
  }

  /** Deleting one character leaves the count of every other character unchanged. */
  lemma {:induction false} CountDeleteChar(s: string, a: char, c: char)
    requires c != a
    ensures multiset(DeleteChar(s, a))[c] == multiset(s)[c]
  {
    if |s| != 0 {
      CountDeleteChar(s[1..], a, c);
      var head := if s[0] == a then [] else [s[0]];
      assert s == [s[0]] + s[1..];
      assert DeleteChar(s, a) == head + DeleteChar(s[1..], a);
    }
  }

  lemma UnsignedPointCount(s: string)
    requires IsUnsignedDecimal(s)
    ensures multiset(s)['.'] <= 1
  {
    if '.' in s {
      var k :| 0 <= k < |s| && s[k] == '.' && AllDigits(s[..k]) && AllDigits(s[k + 1..]);
      assert s == s[..k] + [s[k]] + s[k + 1..];
      assert '.' !in s[..k] && '.' !in s[k + 1..];
    }
  }

  /** A decimal has at most one decimal point. */
  lemma DecimalPointCount(s: string)
    requires IsDecimal(s)
    ensures multiset(s)['.'] <= 1
  {
    if |s| > 0 && IsSign(s[0]) {
      UnsignedPointCount(s[1..]);
      assert s == [s[0]] + s[1..];
    } else {
      UnsignedPointCount(s);
    }
  }

  lemma TwoPointsCounted(v: string, i: nat, j: nat)
    requires i < j < |v| && v[i] == '.' && v[j] == '.'
    ensures multiset(v)['.'] >= 2
  {
    assert v == v[..j] + v[j..];
    assert v[..j][i] == '.' && v[j..][0] == '.';
  }

  /** The parenthesis convention keeps the count of every character but the parentheses. */
  lemma ParenSignKeepsPoints(s: string)
    ensures multiset(ApplyParenSign(s))['.'] == multiset(s)['.']
  {
    if IsParenthesized(s) {
      var mid := s[1..|s| - 1];
      assert s == "(" + mid + ")";
    }
  }

  /** A candidate with two decimal points, such as `1.2.3`, is rejected rather than
      repaired: the cleaner keeps both points, so `float` fails. */
  lemma CleanRejectsTwoPoints(v: string, i: nat, j: nat)
    requires i < j < |v| && v[i] == '.' && v[j] == '.'
    ensures Clean(v) == ""
  {
    TwoPointsCounted(v, i, j);
    var s1 := DeleteChar(v, '$');
    var stripped := DeleteChar(s1, ' ');
    CountDeleteChar(v, '$', '.');
    CountDeleteChar(s1, ' ', '.');
    var signed := ApplyParenSign(stripped);
    ParenSignKeepsPoints(stripped);
    var plain := DeleteChar(signed, ',');
    CountDeleteChar(signed, ',', '.');
    if IsDecimal(plain) {
      DecimalPointCount(plain);
      assert false;
    }
  }

  /** A run followed by a parenthesised run, `1,234(1,234)`, never cleans to a number:
      it does not open with `(`, so the parenthesis survives into the candidate. */
  lemma CleanRejectsParenSuffix(a: string, b: string)
    requires IsDigitRun(a) && IsDigitRun(b)
    ensures Clean(a + "(" + b + ")") == ""
  {
    var s := a + "(" + b + ")";
    assert s[|a|] == '(';
    assert '$' !in s && ' ' !in s;
    assert StripCurrency(s) == s;
    assert !IsParenthesized(s);
    var plain := DeleteChar(s, ',');
    assert '(' in s;
    assert '(' in plain;
    if IsDecimal(plain) {
      DecimalHasNoDecoration(plain);
    }
  }
}

=== FILE: extraction.dfy ===
/** The field extraction entry point (backend/core/views.py,
    `extract_financial_values`): normalise the text, then run the revenue
    table and the cost-of-sales table, each with the first-success rule. */
module Extraction {
  import opened Strings
  import opened Normalizer
  import opened Selection
  import opened Patterns

  /** The mapping the function returns: exactly the keys `revenue` and `cos`. */
  datatype FinancialValues = FinancialValues(revenue: string, cos: string)

  /** `revenue_patterns`, most qualified phrasing first. */
  const RevenuePatterns: seq<Pattern> := [
    // total\s+revenues?\s+\$\s*
    Pattern(false, [Word("total"), Spaces, Word("revenue"), Maybe('s'), Spaces, Word("$"), OptSpaces]),
    // revenues?\s+\$\s*
    Pattern(false, [Word("revenue"), Maybe('s'), Spaces, Word("$"), OptSpaces]),
    // consolidated\s+revenues?\s+\$\s*
    Pattern(false, [Word("consolidated"), Spaces, Word("revenue"), Maybe('s'), Spaces, Word("$"), OptSpaces]),
    // revenue[:\s]*\$?
    Pattern(false, [Word("revenue"), ColonsOrSpaces, Maybe('$')]),
    // total\s+revenue[:\s]*\$?
    Pattern(false, [Word("total"), Spaces, Word("revenue"), ColonsOrSpaces, Maybe('$')]),
    // net\s+revenue[:\s]*\$?
    Pattern(false, [Word("net"), Spaces, Word("revenue"), ColonsOrSpaces, Maybe('$')]),
    // net\s+sales[:\s]*\$?
    Pattern(false, [Word("net"), Spaces, Word("sales"), ColonsOrSpaces, Maybe('$')])
  ]

  /** `cos_patterns`, most qualified phrasing first. */
  const CosPatterns: seq<Pattern> := [
    // ^cost\s+of\s+revenues?\s+
    Pattern(true, [Word("cost"), Spaces, Word("of"), Spaces, Word("revenue"), Maybe('s'), Spaces]),
    // costs?\s+and\s+expenses:\s*cost\s+of\s+revenues?\s+
    Pattern(false, [Word("cost"), Maybe('s'), Spaces, Word("and"), Spaces, Word("expenses:"), OptSpaces,
                    Word("cost"), Spaces, Word("of"), Spaces, Word("revenue"), Maybe('s'), Spaces]),
    // cost\s+of\s+revenues?\s+\$\s*
    Pattern(false, [Word("cost"), Spaces, Word("of"), Spaces, Word("revenue"), Maybe('s'), Spaces, Word("$"), OptSpaces]),
    // cost\s+of\s+sales[:\s]*\$?
    Pattern(false, [Word("cost"), Spaces, Word("of"), Spaces, Word("sales"), ColonsOrSpaces, Maybe('$')]),
    // cost\s+of\s+revenue[:\s]*\$?
    Pattern(false, [Word("cost"), Spaces, Word("of"), Spaces, Word("revenue"), ColonsOrSpaces, Maybe('$')]),
    // cost\s+of\s+goods\s+sold[:\s]*\$?
    Pattern(false, [Word("cost"), Spaces, Word("of"), Spaces, Word("goods"), Spaces, Word("sold"), ColonsOrSpaces, Maybe('$')]),
    // cost\s+of\s+services[:\s]*\$?
    Pattern(false, [Word("cost"), Spaces, Word("of"), Spaces, Word("services"), ColonsOrSpaces, Maybe('$')])
  ]

  /** Every cost-of-sales pattern opens with the keyword `cost`. */
  lemma CosPatternsOpenWithCost()
    ensures forall i | 0 <= i < |CosPatterns| :: |CosPatterns[i].lead| > 0 && CosPatterns[i].lead[0] == Word("cost")
  {
  }

  function Table(patterns: seq<Pattern>): (table: seq<Matcher>)
    ensures |table| == |patterns|
    ensures forall i | 0 <= i < |patterns| :: table[i] == MatcherOf(patterns[i])
  {
    seq(|patterns|, i requires 0 <= i < |patterns| => MatcherOf(patterns[i]))
  }

  /** Over a table of concrete patterns, the value comes from pattern `k`
      when every earlier pattern offers nothing and pattern `k` offers a value. */
  lemma TableValueAt(text: string, patterns: seq<Pattern>, k: nat)
    requires k < |patterns|
    requires forall j | 0 <= j < k :: Offer(text, MatcherOf(patterns[j])) == ""
    requires Offer(text, MatcherOf(patterns[k])) != ""
    ensures ExtractValue(text, Table(patterns)) == Offer(text, MatcherOf(patterns[k]))
  {
    ExtractValueAt(text, Table(patterns), k);
  }

  /** A whole number without sign or separators, as every extracted field is. */
  predicate IsWholeNumber(s: string) {
    |s| > 0 && AllDigits(s)
  }

  /** Over any table of concrete patterns, the extracted value is either
      missing or the digits of a whole number: the parenthesised capture
      never cleans, so no field ever comes out negative or fractional. */
  lemma PatternTableYieldsWholeNumbers(text: string, patterns: seq<Pattern>)
    ensures ExtractValue(text, Table(patterns)) == "" || IsWholeNumber(ExtractValue(text, Table(patterns)))
  {
    var table := Table(patterns);
    var r := ExtractValue(text, table);
    var offers := Offers(text, table);
    if r != "" {
      var k :| FirstAt(offers, k);
      OfferOfPattern(patterns[k], text);
    }
  }

  /** Over any table of concrete patterns, nothing is found in the empty text. */
  lemma PatternTableEmptyText(patterns: seq<Pattern>)
    ensures ExtractValue("", Table(patterns)) == ""
  {
    var table := Table(patterns);
    forall i | 0 <= i < |table|
      ensures Offers("", table)[i] == ""
    {
      NoMatchInEmptyText(patterns[i]);
    }
  }

  function ExtractFinancialValues(text: string): (values: FinancialValues)
    ensures values.revenue == "" || IsWholeNumber(values.revenue)
    ensures values.cos == "" || IsWholeNumber(values.cos)
    ensures text == "" ==> values == FinancialValues("", "")
  {
    var normalized := Normalize(text);
    PatternTableYieldsWholeNumbers(normalized, RevenuePatterns);
    PatternTableYieldsWholeNumbers(normalized, CosPatterns);
    PatternTableEmptyText(RevenuePatterns);
    PatternTableEmptyText(CosPatterns);
    FinancialValues(
      ExtractValue(normalized, Table(RevenuePatterns)),
      ExtractValue(normalized, Table(CosPatterns)))
  }

  /** Line breaks never matter: text and its normal form give the same fields. */
  lemma ExtractionIgnoresLineBreaks(text: string)
    ensures ExtractFinancialValues(Normalize(text)) == ExtractFinancialValues(text)
  {
    NormalizeIdempotent(text);
  }
}

=== FILE: normalizer.dfy ===
/** Text normalisation ahead of pattern scanning (backend/core/views.py,
    first statement of `extract_financial_values`): line feeds and carriage
    returns become spaces; nothing else is touched (no case folding, no
    collapsing of runs of spaces). */
module Normalizer {
  import opened Strings
  import opened PageText

  predicate IsLineBreak(c: char) {
    c == '\n' || c == '\r'
  }

  /** `text.replace('\n', ' ').replace('\r', ' ')` */
  function Normalize(text: string): (r: string)
    ensures |r| == |text|
    ensures forall i | 0 <= i < |r| :: !IsLineBreak(r[i])
    ensures forall i | 0 <= i < |text| && !IsLineBreak(text[i]) :: r[i] == text[i]
    ensures forall i | 0 <= i < |text| && IsLineBreak(text[i]) :: r[i] == ' '
  {
    MapChar(MapChar(text, '\n', ' '), '\r', ' ')
  }

  /** Text without line breaks is already normal. */
  lemma NormalizeFixesBreakFree(text: string)
    requires forall i | 0 <= i < |text| :: !IsLineBreak(text[i])
    ensures Normalize(text) == text
  {
  }

  lemma NormalizeIdempotent(text: string)
    ensures Normalize(Normalize(text)) == Normalize(text)
  {
    NormalizeFixesBreakFree(Normalize(text));
  }

  /** Normalisation works character by character, so it distributes over concatenation. */
  lemma NormalizeAppend(s: string, t: string)
    ensures Normalize(s + t) == Normalize(s) + Normalize(t)
  {
    MapCharAppend(s, t, '\n', ' ');
    MapCharAppend(MapChar(s, '\n', ' '), MapChar(t, '\n', ' '), '\r', ' ');
  }

  /** Each page contribution in normal form: the page, normalised, followed by a space. */
  function SpacedPages(pages: seq<string>): string
    decreases |pages|
  {
    if |pages| == 0 then ""
    else (if pages[0] != "" then Normalize(pages[0]) + " " else "") + SpacedPages(pages[1..])
  }

  /** After normalisation, the newline that `extract_text_from_pdf` puts after each
      non-empty page is a single space: page boundaries become word boundaries. */
  lemma {:induction false} NormalizeJoinedPages(pages: seq<string>)
    ensures Normalize(JoinPages(pages)) == SpacedPages(pages)
  {
    if |pages| != 0 {
      NormalizeJoinedPages(pages[1..]);
      NormalizeAppend(Contribution(pages[0]), JoinPages(pages[1..]));
      if pages[0] != "" {
        NormalizeAppend(pages[0], "\n");
        assert Normalize("\n") == " ";
      }
    }
  }
}

=== FILE: pagetext.dfy ===
/** Assembling the document text from the per-page texts of a PDF
    (backend/core/views.py, `extract_text_from_pdf`). The PDF library is not
    modelled: a page is represented by the text it yields, with a page that
    yields nothing (Python `None` or `""`) represented by the empty string. */
module PageText {

  /** The text contributed by one page: nothing for an empty page, otherwise
      the page followed by a newline. */
  function Contribution(page: string): string {
    if page != "" then page + "\n" else ""
  }

  /** Reference definition: the contributions of all pages, in page order. */
  function JoinPages(pages: seq<string>): (text: string)
    decreases |pages|
  {
    if |pages| == 0 then "" else Contribution(pages[0]) + JoinPages(pages[1..])
  }

  function NonEmptyPages(pages: seq<string>): nat {
    if |pages| == 0 then 0 else (if pages[0] != "" then 1 else 0) + NonEmptyPages(pages[1..])
  }

  function TotalLength(pages: seq<string>): nat {
    if |pages| == 0 then 0 else |pages[0]| + TotalLength(pages[1..])
  }

  /** The accumulation loop of `extract_text_from_pdf`: `text += page_text + "\n"`
      for each page whose text is truthy. */
  method ExtractText(pages: seq<string>) returns (text: string)
    ensures text == JoinPages(pages)
  {
    text := "";
    for i := 0 to |pages|
      invariant text + JoinPages(pages[i..]) == JoinPages(pages)
    {
      ghost var rest := JoinPages(pages[i + 1..]);
      assert pages[i..][1..] == pages[i + 1..];
      assert JoinPages(pages[i..]) == Contribution(pages[i]) + rest;
      if pages[i] != "" {
        assert text + (pages[i] + "\n" + rest) == text + pages[i] + "\n" + rest;
        text := text + pages[i] + "\n";
      }
    }
    assert pages[|pages|..] == [];
  }

  lemma {:induction false} JoinPagesAppend(a: seq<string>, b: seq<string>)
    ensures JoinPages(a + b) == JoinPages(a) + JoinPages(b)
  {
    if |a| == 0 {
      assert a + b == b;
    } else {
      assert (a + b)[1..] == a[1..] + b;
      JoinPagesAppend(a[1..], b);
    }
  }

  /** Every non-empty page adds exactly its own characters plus one newline;
      empty pages add nothing. */
  lemma {:induction false} JoinPagesLength(pages: seq<string>)
    ensures |JoinPages(pages)| == TotalLength(pages) + NonEmptyPages(pages)
  {
    if |pages| != 0 {
      JoinPagesLength(pages[1..]);
    }
  }

  /** Removing, or inserting, empty pages anywhere leaves the text unchanged. */
  lemma {:induction false} EmptyPageContributesNothing(a: seq<string>, b: seq<string>)
    ensures JoinPages(a + [""] + b) == JoinPages(a + b)
  {
    var empty: seq<string> := [""];
    assert JoinPages(empty) == "" by {
      assert empty[1..] == [];
    }
    calc {
      JoinPages(a + empty + b);
      { JoinPagesAppend(a + empty, b); }
      JoinPages(a + empty) + JoinPages(b);
      { JoinPagesAppend(a, empty); }
      JoinPages(a) + JoinPages(b);
      { JoinPagesAppend(a, b); }
      JoinPages(a + b);
    }
  }

  /** The text is empty exactly when every page is empty, and otherwise it ends
      with the newline that follows the last non-empty page. */
  lemma {:induction false} JoinPagesEmptyIff(pages: seq<string>)
    ensures JoinPages(pages) == "" <==> forall i | 0 <= i < |pages| :: pages[i] == ""
    ensures JoinPages(pages) != "" ==> JoinPages(pages)[|JoinPages(pages)| - 1] == '\n'
  {
    if |pages| != 0 {
      JoinPagesEmptyIff(pages[1..]);
      assert forall i | 1 <= i < |pages| :: pages[i] == pages[1..][i - 1];
    }
  }
}

=== FILE: patterns.dfy ===
/** A concrete matcher for the one pattern shape both tables of
    backend/core/views.py use: a keyword phrase, then an amount capture
    `([0-9,]+(?:\([0-9,]+\))?)`, searched with `re.findall(..., re.IGNORECASE)`.

    The keyword phrase is a sequence of elements (literal words, `c?`, `\s+`,
    `\s*`, `[:\s]*`), optionally anchored by `^`. Every optional or repeated
    element in the tables is followed only by something that cannot start
    with a character the element itself accepts (`s?` before `\s+` or
    `[:\s]*`, `\s*` before a word or a digit, `[:\s]*` before `\$?` and a
    digit), so the leftmost-greedy reading below makes the same choices as
    the backtracking regular-expression engine on these patterns. */
module Patterns {
  import opened Strings
  import opened Cleaner
  import opened Selection

  datatype Option<T> = None | Some(value: T)

  /** Python's `\s` on text patterns: the characters `str.isspace()` accepts. */
  predicate IsSpace(c: char) {
    || c == ' '
    || '\t' <= c <= '\r'
    || '\U{1C}' <= c <= '\U{1F}'
    || c == '\U{85}' || c == '\U{A0}' || c == '\U{1680}'
    || '\U{2000}' <= c <= '\U{200A}'
    || c == '\U{2028}' || c == '\U{2029}' || c == '\U{202F}' || c == '\U{205F}' || c == '\U{3000}'
  }

  function Lower(c: char): char {
    if 'A' <= c <= 'Z' then (c as int + 32) as char else c
  }

  /** `re.IGNORECASE`, restricted to ASCII letters. */
  predicate SameIgnoringCase(a: char, b: char) {
    Lower(a) == Lower(b)
  }

  datatype CharClass =
    | SpaceClass        // \s
    | ColonSpaceClass   // [:\s]
    | AmountClass       // [0-9,]

  predicate InClass(k: CharClass, c: char) {
    match k
    case SpaceClass => IsSpace(c)
    case ColonSpaceClass => c == ':' || IsSpace(c)
    case AmountClass => IsDigit(c) || c == ','
  }

  /** The end of the longest run of class `k` starting at `i` (greedy `*`). */
  function SkipRun(k: CharClass, text: string, i: nat): (j: nat)
    requires i <= |text|
    ensures i <= j <= |text|
    ensures forall l | i <= l < j :: InClass(k, text[l])
    ensures j == |text| || !InClass(k, text[j])
    decreases |text| - i
  {
    if i < |text| && InClass(k, text[i]) then SkipRun(k, text, i + 1) else i
  }

  /** A run of class `k` from `i` to `j` that cannot be extended is the one `SkipRun` finds. */
  lemma SkipRunEnds(k: CharClass, text: string, i: nat, j: nat)
    requires i <= j <= |text|
    requires forall l | i <= l < j :: InClass(k, text[l])
    requires j == |text| || !InClass(k, text[j])
    ensures SkipRun(k, text, i) == j
  {
  }

  datatype Element =
    | Word(w: string)     // literal text, matched ignoring case
    | Maybe(c: char)      // c?
    | Spaces              // \s+
    | OptSpaces           // \s*
    | ColonsOrSpaces      // [:\s]*

  /** `^`? then the keyword elements, then the amount capture. */
  datatype Pattern = Pattern(anchored: bool, lead: seq<Element>)

  predicate WordAt(w: string, text: string, i: nat) {
    && i + |w| <= |text|
    && forall l | 0 <= l < |w| :: SameIgnoringCase(text[i + l], w[l])
  }

  function MatchElement(e: Element, text: string, i: nat): (r: Option<nat>)
    requires i <= |text|
    ensures r.Some? ==> i <= r.value <= |text|
  {
    match e
    case Word(w) => if WordAt(w, text, i) then Some(i + |w|) else None
    case Maybe(c) => if i < |text| && SameIgnoringCase(text[i], c) then Some(i + 1) else Some(i)
    case Spaces => var j := SkipRun(SpaceClass, text, i); if j > i then Some(j) else None
    case OptSpaces => Some(SkipRun(SpaceClass, text, i))
    case ColonsOrSpaces => Some(SkipRun(ColonSpaceClass, text, i))
  }

  function MatchLead(lead: seq<Element>, text: string, i: nat): (r: Option<nat>)
    requires i <= |text|
    ensures r.Some? ==> i <= r.value <= |text|
    decreases |lead|
  {
    if |lead| == 0 then Some(i)
    else match MatchElement(lead[0], text, i)
      case None => None
      case Some(j) => MatchLead(lead[1..], text, j)
  }

  /** A single space between two words: `\s+` and `\s*` both take exactly it. */
  lemma OneSpace(text: string, i: nat)
    requires i + 1 < |text| && IsSpace(text[i]) && !IsSpace(text[i + 1])
    ensures MatchElement(Spaces, text, i) == Some(i + 1)
    ensures MatchElement(OptSpaces, text, i) == Some(i + 1)
  {
    SkipRunEnds(SpaceClass, text, i, i + 1);
  }

  /** No space at `i`: `\s*` takes nothing. */
  lemma NoSpace(text: string, i: nat)
    requires i < |text| && !IsSpace(text[i])
    ensures MatchElement(OptSpaces, text, i) == Some(i)
  {
    SkipRunEnds(SpaceClass, text, i, i);
  }

  /** The keyword phrase matches element by element: if each element `k`
      runs from `pos[k]` to `pos[k + 1]`, the phrase runs from the first
      position to the last. */
  lemma {:induction false} MatchLeadSteps(lead: seq<Element>, text: string, pos: seq<nat>)
    requires |pos| == |lead| + 1 && pos[0] <= |text|
    requires forall k | 0 <= k < |lead| :: pos[k] <= |text| && MatchElement(lead[k], text, pos[k]) == Some(pos[k + 1])
    ensures MatchLead(lead, text, pos[0]) == Some(pos[|lead|])
    decreases |lead|
  {
    if |lead| > 0 {
      assert pos[1] <= |text|;
      assert forall k | 0 <= k < |lead| - 1 :: lead[1..][k] == lead[k + 1] && pos[1..][k] == pos[k + 1];
      MatchLeadSteps(lead[1..], text, pos[1..]);
    }
  }

  /** The texts the capture group `([0-9,]+(?:\([0-9,]+\))?)` can hold. */
  ghost predicate IsAmount(s: string) {
    || IsDigitRun(s)
    || exists k | 0 < k < |s| - 1 ::
         && s[k] == '(' && s[|s| - 1] == ')'
         && IsDigitRun(s[..k]) && IsDigitRun(s[k + 1..|s| - 1])
  }

  /** The end of the capture starting at `i`: a maximal digit run, extended by a
      parenthesised digit run when one follows immediately. */
  function MatchAmount(text: string, i: nat): (r: Option<nat>)
    requires i <= |text|
    ensures r.Some? ==> i < r.value <= |text| && IsAmount(text[i..r.value])
    ensures r.Some? <==> i < |text| && InClass(AmountClass, text[i])
  {
    var j := SkipRun(AmountClass, text, i);
    if j == i then None
    else
      assert IsDigitRun(text[i..j]);
      if j < |text| && text[j] == '(' then
        var k := SkipRun(AmountClass, text, j + 1);
        if k > j + 1 && k < |text| && text[k] == ')' then
          var s := text[i..k + 1];
          assert |s| == k + 1 - i;
          assert s[..j - i] == text[i..j];
          SliceOfSlice(text, i, k + 1, j - i + 1, k - i);
          assert IsDigitRun(text[j + 1..k]);
          Some(k + 1)
        else Some(j)
      else Some(j)
  }

  lemma SliceOfSlice(t: string, i: nat, k: nat, a: nat, b: nat)
    requires i <= k <= |t| && a <= b <= k - i
    ensures t[i..k][a..b] == t[i + a..i + b]
  {
    var u := t[i..k];
    assert forall l | a <= l < b :: u[l] == t[i + l];
    assert forall l | 0 <= l < b - a :: u[a..b][l] == u[a + l];
  }

  /** Where the capture of a match sits in the text. */
  datatype Span = Span(start: nat, end: nat)

  /** A match of `p` starting exactly at offset `i`. `^` without the MULTILINE
      flag only matches at the start of the string. */
  function MatchAt(p: Pattern, text: string, i: nat): (r: Option<Span>)
    requires i <= |text|
    ensures r.Some? ==> i <= r.value.start < r.value.end <= |text|
    ensures p.anchored && i > 0 ==> r.None?
  {
    if p.anchored && i > 0 then None
    else match MatchLead(p.lead, text, i)
      case None => None
      case Some(j) =>
        match MatchAmount(text, j)
        case None => None
        case Some(k) => Some(Span(j, k))
  }

  /** What a match captures has the shape of the amount group. */
  lemma MatchCapturesAmount(p: Pattern, text: string, i: nat)
    requires i <= |text| && MatchAt(p, text, i).Some?
    ensures IsAmount(CaptureAt(p, text, i))
  {
    var j := MatchLead(p.lead, text, i).value;
    assert MatchAmount(text, j).Some?;
  }

  /** At `j` stands `(`, then a non-empty digit run closed by `)`: the
      optional group `(?:\([0-9,]+\))?` can take part. */
  ghost predicate ClosedRunAt(text: string, j: nat) {
    && j < |text| && text[j] == '('
    && exists k | j + 1 < k < |text| :: text[k] == ')' && forall l | j + 1 <= l < k :: InClass(AmountClass, text[l])
  }

  /** A maximal digit run that no closed parenthesised run follows is
      captured whole: the optional group matches the empty string. */
  lemma MatchAmountRun(text: string, i: nat, j: nat)
    requires i < j <= |text|
    requires forall l | i <= l < j :: InClass(AmountClass, text[l])
    requires j == |text| || (!InClass(AmountClass, text[j]) && !ClosedRunAt(text, j))
    ensures MatchAmount(text, i) == Some(j)
  {
    SkipRunEnds(AmountClass, text, i, j);
    if j < |text| && text[j] == '(' {
      var k := SkipRun(AmountClass, text, j + 1);
      if k > j + 1 && k < |text| && text[k] == ')' {
        assert ClosedRunAt(text, j);
      }
    }
  }

  /** A maximal digit run followed by a closed parenthesised run is captured
      together with it, up to and including the `)`. */
  lemma MatchAmountSuffix(text: string, i: nat, j: nat, k: nat)
    requires i < j && j + 1 < k < |text|
    requires forall l | i <= l < j :: InClass(AmountClass, text[l])
    requires text[j] == '(' && text[k] == ')'
    requires forall l | j + 1 <= l < k :: InClass(AmountClass, text[l])
    ensures MatchAmount(text, i) == Some(k + 1)
  {
    SkipRunEnds(AmountClass, text, i, j);
    SkipRunEnds(AmountClass, text, j + 1, k);
  }

  ghost predicate MatchesAt(p: Pattern, text: string, i: int) {
    0 <= i <= |text| && MatchAt(p, text, i).Some?
  }

  /** `i` is the leftmost offset at or after `from` where `p` matches. */
  ghost predicate LeftmostFrom(p: Pattern, text: string, from: int, i: int) {
    && from <= i
    && MatchesAt(p, text, i)
    && forall l | from <= l < i :: !MatchesAt(p, text, l)
  }

  function CaptureAt(p: Pattern, text: string, i: nat): string
    requires i <= |text| && MatchAt(p, text, i).Some?
  {
    var sp := MatchAt(p, text, i).value;
    text[sp.start..sp.end]
  }

  /** The match, if any, starting at each offset `0..|text|`. */
  function MatchTable(p: Pattern, text: string): (spans: seq<Option<Span>>)
    ensures |spans| == |text| + 1
    ensures forall i | 0 <= i <= |text| :: spans[i] == MatchAt(p, text, i)
  {
    seq(|text| + 1, i requires 0 <= i <= |text| => MatchAt(p, text, i))
  }

  /** Every recorded capture lies in the text, after the offset it was found at. */
  ghost predicate WellPlaced(spans: seq<Option<Span>>, n: nat) {
    && |spans| == n + 1
    && forall i | 0 <= i <= n && spans[i].Some? :: i <= spans[i].value.start < spans[i].value.end <= n
  }

  lemma MatchTableWellPlaced(p: Pattern, text: string)
    ensures WellPlaced(MatchTable(p, text), |text|)
  {
  }

  /** The scanning loop of `re.findall` over the match table: left to right,
      report each match's capture, resume where the match ended. */
  function Scan(text: string, spans: seq<Option<Span>>, from: nat): (ms: seq<Groups>)
    requires WellPlaced(spans, |text|) && from <= |text|
    ensures forall n | 0 <= n < |ms| :: |ms[n]| == 1
    ensures |ms| > 0 <==> exists i | from <= i <= |text| :: spans[i].Some?
    decreases |text| - from
  {
    match spans[from]
    case Some(sp) =>
      [[text[sp.start..sp.end]]] + Scan(text, spans, sp.end)
    case None =>
      if from < |text| then Scan(text, spans, from + 1) else []
  }

  /** The first item of the scan is the capture of the leftmost match. */
  lemma {:induction false} ScanLeftmost(text: string, spans: seq<Option<Span>>, from: nat, i: nat)
    requires WellPlaced(spans, |text|) && from <= i <= |text|
    requires spans[i].Some? && forall l | from <= l < i :: spans[l].None?
    ensures |Scan(text, spans, from)| > 0
    ensures Scan(text, spans, from)[0] == [text[spans[i].value.start..spans[i].value.end]]
    decreases |text| - from
  {
    if i > from {
      ScanLeftmost(text, spans, from + 1, i);
    }
  }

  /** Every item of the scan is a capture some recorded match made. */
  lemma {:induction false} ScanCaptures(text: string, spans: seq<Option<Span>>, from: nat, P: string -> bool)
    requires WellPlaced(spans, |text|) && from <= |text|
    requires forall i | 0 <= i <= |text| && spans[i].Some? :: P(text[spans[i].value.start..spans[i].value.end])
    ensures forall n | 0 <= n < |Scan(text, spans, from)| :: P(Scan(text, spans, from)[n][0])
    decreases |text| - from
  {
    match spans[from]
    case Some(sp) =>
      ScanCaptures(text, spans, sp.end, P);
      var rest := Scan(text, spans, sp.end);
      assert forall n | 1 <= n < |rest| + 1 :: Scan(text, spans, from)[n] == rest[n - 1];
    case None =>
      if from < |text| {
        ScanCaptures(text, spans, from + 1, P);
      }
  }

  lemma TableHasMatch(p: Pattern, text: string)
    ensures (exists i | 0 <= i <= |text| :: MatchTable(p, text)[i].Some?) <==> exists i | 0 <= i :: MatchesAt(p, text, i)
  {
    var spans := MatchTable(p, text);
    if exists i | 0 <= i :: MatchesAt(p, text, i) {
      var i :| 0 <= i && MatchesAt(p, text, i);
      assert spans[i].Some?;
    }
    if exists i | 0 <= i <= |text| :: spans[i].Some? {
      var i :| 0 <= i <= |text| && spans[i].Some?;
      assert MatchesAt(p, text, i);
    }
  }

  lemma LeftmostInTable(p: Pattern, text: string, i: int)
    requires LeftmostFrom(p, text, 0, i)
    ensures 0 <= i <= |text| && MatchTable(p, text)[i] == MatchAt(p, text, i)
    ensures MatchTable(p, text)[i].Some? && forall l | 0 <= l < i :: MatchTable(p, text)[l].None?
  {
    var spans := MatchTable(p, text);
    forall l | 0 <= l < i
      ensures spans[l].None?
    {
      assert !MatchesAt(p, text, l);
    }
  }

  /** `re.findall(pattern, text, re.IGNORECASE)` for a pattern with one group. */
  function FindAll(p: Pattern, text: string): (ms: seq<Groups>)
    ensures forall n | 0 <= n < |ms| :: |ms[n]| == 1
    ensures |ms| > 0 <==> exists i | 0 <= i :: MatchesAt(p, text, i)
    ensures forall i | LeftmostFrom(p, text, 0, i) :: ms[0] == [CaptureAt(p, text, i)]
  {
    var spans := MatchTable(p, text);
    MatchTableWellPlaced(p, text);
    TableHasMatch(p, text);
    forall i | LeftmostFrom(p, text, 0, i)
      ensures Scan(text, spans, 0)[0] == [CaptureAt(p, text, i)]
    {
      LeftmostInTable(p, text, i);
      ScanLeftmost(text, spans, 0, i);
    }
    Scan(text, spans, 0)
  }

  /** Every item `re.findall` returns is a capture of the amount group. */
  lemma FindAllCaptures(p: Pattern, text: string)
    ensures forall n | 0 <= n < |FindAll(p, text)| :: IsAmount(FindAll(p, text)[n][0])
  {
    var spans := MatchTable(p, text);
    MatchTableWellPlaced(p, text);
    forall i | 0 <= i <= |text| && spans[i].Some?
      ensures IsAmount(text[spans[i].value.start..spans[i].value.end])
    {
      MatchCapturesAmount(p, text, i);
    }
    ScanCaptures(text, spans, 0, IsAmount);
  }

  function MatcherOf(p: Pattern): Matcher {
    (text: string) => FindAll(p, text)
  }

  /** A pattern anchored by `^` matches at most once. */
  lemma AnchoredMatchesOnce(p: Pattern, text: string)
    requires p.anchored
    ensures |FindAll(p, text)| <= 1
  {
    var spans := MatchTable(p, text);
    MatchTableWellPlaced(p, text);
    match spans[0]
    case Some(sp) =>
      assert forall i | sp.end <= i <= |text| :: spans[i].None?;
      assert |Scan(text, spans, sp.end)| == 0;
    case None =>
  }

  /** What a concrete pattern offers: the digits of its first capture when
      that capture is a plain digit run, and nothing when the capture carries
      the parenthesised suffix (which never cleans to a number). */
  lemma OfferOfPattern(p: Pattern, text: string)
    ensures Offer(text, MatcherOf(p)) == "" || AllDigits(Offer(text, MatcherOf(p)))
  {
    FindAllCaptures(p, text);
    OfferOfAmounts(text, MatcherOf(p));
  }

  /** A matcher whose every match is one amount capture offers nothing or digits. */
  lemma OfferOfAmounts(text: string, m: Matcher)
    requires forall n | 0 <= n < |m(text)| :: |m(text)[n]| == 1 && IsAmount(m(text)[n][0])
    ensures Offer(text, m) == "" || AllDigits(Offer(text, m))
  {
    var ms := m(text);
    if |ms| > 0 {
      assert Captured(ms[0]) == ms[0][0];
      CleanAmount(ms[0][0]);
    }
  }

  lemma CleanAmount(s: string)
    requires IsAmount(s)
    ensures Clean(s) == "" || AllDigits(Clean(s))
  {
    if IsDigitRun(s) {
      CleanDigitRun(s);
    } else {
      var k :| 0 < k < |s| - 1 && s[k] == '(' && s[|s| - 1] == ')'
               && IsDigitRun(s[..k]) && IsDigitRun(s[k + 1..|s| - 1]);
      assert s == s[..k] + "(" + s[k + 1..|s| - 1] + ")";
      CleanRejectsParenSuffix(s[..k], s[k + 1..|s| - 1]);
    }
  }

  /** A pattern that opens with a word only matches where the word's first
      letter occurs. */
  lemma MatchNeedsKeyword(p: Pattern, text: string, i: nat)
    requires i <= |text|
    requires |p.lead| > 0 && p.lead[0].Word? && |p.lead[0].w| > 0
    requires MatchAt(p, text, i).Some?
    ensures i < |text| && SameIgnoringCase(text[i], p.lead[0].w[0])
  {
    assert MatchLead(p.lead, text, i).Some?;
    assert MatchElement(p.lead[0], text, i).Some?;
  }

  /** No match in `[from, upto)` when the keyword's first letter does not occur there. */
  lemma NoMatchWithoutKeyword(p: Pattern, text: string, from: nat, upto: nat)
    requires from <= upto <= |text| + 1
    requires |p.lead| > 0 && p.lead[0].Word? && |p.lead[0].w| > 0
    requires forall i | from <= i < upto && i < |text| :: !SameIgnoringCase(text[i], p.lead[0].w[0])
    ensures forall i | from <= i < upto :: !MatchesAt(p, text, i)
  {
    forall i | from <= i < upto && MatchesAt(p, text, i)
      ensures false
    {
      MatchNeedsKeyword(p, text, i);
    }
  }

  /** A pattern that matches nowhere offers nothing. */
  lemma NoOfferWithoutMatch(p: Pattern, text: string)
    requires forall i | 0 <= i :: !MatchesAt(p, text, i)
    ensures FindAll(p, text) == []
    ensures Offer(text, MatcherOf(p)) == ""
  {
  }

  /** A pattern whose keyword cannot start anywhere in the text offers nothing. */
  lemma NoOfferWithoutKeyword(p: Pattern, text: string)
    requires |p.lead| > 0 && p.lead[0].Word? && |p.lead[0].w| > 0
    requires forall i | 0 <= i < |text| :: !SameIgnoringCase(text[i], p.lead[0].w[0])
    ensures FindAll(p, text) == []
    ensures Offer(text, MatcherOf(p)) == ""
  {
    NoMatchWithoutKeyword(p, text, 0, |text| + 1);
    NoOfferWithoutMatch(p, text);
  }

  /** No pattern finds anything in the empty text. */
  lemma NoMatchInEmptyText(p: Pattern)
    ensures FindAll(p, "") == []
  {
    assert !MatchesAt(p, "", 0);
  }
}

=== FILE: scenarios.dfy ===
/** The scenarios of backend/tests/unit/test_pdf_parser.py, stated on the model.
    Literal inputs are passed in as parameters fixed by a `requires`, so that
    each scenario follows from the general lemmas rather than from unfolding
    the definitions on the literal. */
module Scenarios {
  import opened Strings
  import opened PageText
  import opened Normalizer
  import opened Cleaner
  import opened Selection
  import opened Patterns
  import opened Extraction

  lemma TwoPagesJoined()
    ensures JoinPages(["Page 1 content", "Page 2 content"]) == "Page 1 content\nPage 2 content\n"
  {
  }

  lemma GroupedMillions(d: string)
    requires d == "1234567"
    ensures Grouped(d) == "1,234,567"
  {
    var thousands := d[..4];
    assert thousands[..1] == "1" && thousands[1..] == "234";
    assert Grouped(thousands) == "1,234";
    assert d[4..] == "567";
  }

  lemma CleanDollar(v: string, d: string)
    requires v == "$1,234,567" && d == "1234567"
    ensures Clean(v) == d
  {
    GroupedMillions(d);
    assert Render(d, Dollar) == v;
    CleanRender(d, Dollar);
  }

  lemma CleanGroupedOnly(v: string, d: string)
    requires v == "1,234,567" && d == "1234567"
    ensures Clean(v) == d
  {
    GroupedMillions(d);
    assert Render(d, Plain) == v;
    CleanRender(d, Plain);
  }

  lemma CleanDollarSpace(v: string, d: string)
    requires v == "$ 1,234,567" && d == "1234567"
    ensures Clean(v) == d
  {
    GroupedMillions(d);
    assert Render(d, DollarSpace) == v;
    CleanRender(d, DollarSpace);
  }

  lemma CleanCanonical(d: string)
    requires d == "1234567"
    ensures Clean(d) == d
  {
    assert IsDecimal(d);
    CleanFixesDecimals(d);
  }

  lemma CleanDollarParens(v: string, d: string)
    requires v == "$(1,234,567)" && d == "1234567"
    ensures Clean(v) == "-" + d
  {
    GroupedMillions(d);
    assert Render(d, DollarParens) == v;
    CleanRender(d, DollarParens);
  }

  lemma CleanParens(v: string, d: string)
    requires v == "(1,234,567)" && d == "1234567"
    ensures Clean(v) == "-" + d
  {
    GroupedMillions(d);
    assert Render(d, Parens) == v;
    CleanRender(d, Parens);
  }

  lemma CleanMinusDollar(v: string, d: string)
    requires v == "-$1,234,567" && d == "1234567"
    ensures Clean(v) == "-" + d
  {
    GroupedMillions(d);
    assert Render(d, MinusDollar) == v;
    CleanRender(d, MinusDollar);
  }

  lemma CleanNotAvailable(n: string)
    requires n == "N/A"
    ensures Clean(n) == ""
  {
    assert StripCurrency(n) == n;
    assert !IsParenthesized(n);
    assert Unformat(n) == n;
    assert !IsDigit(n[0]) && !IsSign(n[0]);
  }

  lemma CleanZero(v: string, z: string)
    requires v == "$0" && z == "0"
    ensures Clean(v) == z
  {
    assert Render(z, Dollar) == v;
    CleanRender(z, Dollar);
  }

  lemma CleanNegativeZero(v: string, z: string)
    requires v == "$(0)" && z == "0"
    ensures Clean(v) == "-" + z
  {
    assert Render(z, DollarParens) == v;
    CleanRender(z, DollarParens);
  }

  /** A matcher that returns the same matches whatever the text. */
  function Constant(ms: seq<Groups>): (m: Matcher)
    ensures forall t :: m(t) == ms
  {
    (t: string) => ms
  }

  /** A match with several groups contributes its last group. */
  lemma LastGroupUsed(text: string, caption: string, v: string, d: string)
    requires caption == "Total revenues" && v == "$1,234,567" && d == "1234567"
    ensures ExtractValue(text, [Constant([[caption, v]])]) == d
  {
    var m := Constant([[caption, v]]);
    assert Captured(m(text)[0]) == v;
    CleanDollar(v, d);
    assert Offer(text, m) == d;
  }

  /** A pattern whose first match does not clean is skipped, even though a
      later match of the same pattern would have cleaned. */
  lemma FirstMatchOnly(text: string, n: string, v: string, w: string, d: string)
    requires n == "N/A" && v == "$1,234,567" && w == "(1,234,567)" && d == "1234567"
    ensures ExtractValue(text, [Constant([[n], [v]]), Constant([[w]])]) == "-" + d
  {
    var m1 := Constant([[n], [v]]);
    var m2 := Constant([[w]]);
    assert Captured(m1(text)[0]) == n;
    CleanNotAvailable(n);
    assert Offer(text, m1) == "";
    assert Captured(m2(text)[0]) == w;
    CleanParens(w, d);
    assert Offer(text, m2) == "-" + d;
    assert [m1, m2][1..] == [m2];
  }

  /** At the only 'r', the ':' after "Revenue" stops the `\s+` of `revenues?\s+`. */
  lemma PluralRevenueStopsAtColon(text: string, lead: seq<Element>)
    requires text == "Revenue: $1,234,567" && lead == RevenuePatterns[1].lead
    ensures MatchLead(lead, text, 0) == None
  {
    assert MatchElement(lead[0], text, 0) == Some(7);
    assert MatchElement(lead[1], text, 7) == Some(7);
    assert SkipRun(SpaceClass, text, 7) == 7;
    assert MatchLead(lead[2..], text, 7) == None;
  }

  lemma PluralRevenueAbsent(text: string)
    requires text == "Revenue: $1,234,567"
    ensures forall i | 0 <= i :: !MatchesAt(RevenuePatterns[1], text, i)
  {
    var p := RevenuePatterns[1];
    PluralRevenueStopsAtColon(text, p.lead);
    assert !MatchesAt(p, text, 0);
    OnlyOneR(text);
    NoMatchWithoutKeyword(p, text, 1, |text| + 1);
  }

  lemma OnlyOneR(text: string)
    requires text == "Revenue: $1,234,567"
    ensures forall i | 1 <= i < |text| :: !SameIgnoringCase(text[i], 'r')
  {
  }

  /** In "Revenue: $1,234,567" the three qualified revenue patterns find
      nothing: there is no 't' for `total`, no 'c' for `consolidated`, and
      `revenues?\s+` fails at the only 'r'. */
  lemma QualifiedRevenueAbsent(text: string)
    requires text == "Revenue: $1,234,567"
    ensures Offer(text, MatcherOf(RevenuePatterns[0])) == ""
    ensures Offer(text, MatcherOf(RevenuePatterns[1])) == ""
    ensures Offer(text, MatcherOf(RevenuePatterns[2])) == ""
  {
    NoOfferWithoutKeyword(RevenuePatterns[0], text);
    NoOfferWithoutKeyword(RevenuePatterns[2], text);
    PluralRevenueAbsent(text);
    NoOfferWithoutMatch(RevenuePatterns[1], text);
  }

  lemma GenericRevenueLead(text: string, lead: seq<Element>)
    requires text == "Revenue: $1,234,567" && lead == RevenuePatterns[3].lead
    ensures MatchLead(lead, text, 0) == Some(10)
  {
    assert MatchElement(lead[0], text, 0) == Some(7);
    assert SkipRun(ColonSpaceClass, text, 9) == 9;
    assert MatchElement(lead[1], text, 7) == Some(9);
    assert MatchElement(lead[2], text, 9) == Some(10);
  }

  /** `revenue[:\s]*\$?` matches "Revenue: $1,234,567" at its start and
      captures "1,234,567". */
  lemma GenericRevenueMatch(text: string)
    requires text == "Revenue: $1,234,567"
    ensures LeftmostFrom(RevenuePatterns[3], text, 0, 0)
    ensures CaptureAt(RevenuePatterns[3], text, 0) == "1,234,567"
  {
    GenericRevenueLead(text, RevenuePatterns[3].lead);
    assert forall l | 10 <= l < 19 :: InClass(AmountClass, text[l]);
    MatchAmountRun(text, 10, 19);
  }

  lemma GenericRevenueOffer(text: string, d: string)
    requires text == "Revenue: $1,234,567" && d == "1234567"
    ensures Offer(text, MatcherOf(RevenuePatterns[3])) == d
  {
    GenericRevenueMatch(text);
    var p := RevenuePatterns[3];
    assert FindAll(p, text)[0] == [CaptureAt(p, text, 0)];
    CleanGroupedOnly(CaptureAt(p, text, 0), d);
  }

  /** Every cost-of-sales pattern opens with `cost`, and a text without a 'c'
      gives them nothing to match. */
  lemma CosOffersEmptyWithoutC(text: string)
    requires forall i | 0 <= i < |text| :: !SameIgnoringCase(text[i], 'c')
    ensures forall i | 0 <= i < |CosPatterns| :: Offers(text, Table(CosPatterns))[i] == ""
  {
    var cos := Table(CosPatterns);
    CosPatternsOpenWithCost();
    forall i | 0 <= i < |cos|
      ensures Offers(text, cos)[i] == ""
    {
      var pat := CosPatterns[i];
      assert pat.lead[0].w == "cost";
      NoOfferWithoutKeyword(pat, text);
      assert cos[i] == MatcherOf(pat);
    }
  }

  lemma NoCostWithoutC(text: string)
    requires forall i | 0 <= i < |text| :: !SameIgnoringCase(text[i], 'c')
    ensures ExtractValue(text, Table(CosPatterns)) == ""
  {
    CosOffersEmptyWithoutC(text);
  }

  lemma GenericRevenueText(text: string)
    requires text == "Revenue: $1,234,567"
    ensures Normalize(text) == text
    ensures forall i | 0 <= i < |text| :: !SameIgnoringCase(text[i], 'c')
  {
    NormalizeFixesBreakFree(text);
  }

  lemma GenericRevenueTable(text: string, d: string, patterns: seq<Pattern>)
    requires text == "Revenue: $1,234,567" && d == "1234567" && patterns == RevenuePatterns
    ensures ExtractValue(text, Table(patterns)) == d
  {
    QualifiedRevenueAbsent(text);
    GenericRevenueOffer(text, d);
    forall j | 0 <= j < 3
      ensures Offer(text, MatcherOf(patterns[j])) == ""
    {
      assert j == 0 || j == 1 || j == 2;
    }
    TableValueAt(text, patterns, 3);
  }

  /** "Revenue: $1,234,567": the generic `revenue[:\s]*\$?` pattern supplies
      the revenue, and no cost of sales is found. */
  lemma GenericRevenueLabel(text: string, d: string)
    requires text == "Revenue: $1,234,567" && d == "1234567"
    ensures ExtractFinancialValues(text) == FinancialValues(d, "")
  {
    GenericRevenueText(text);
    GenericRevenueTable(text, d, RevenuePatterns);
    NoCostWithoutC(text);
  }

  lemma TotalRevenuesWords(text: string)
    requires text == "Total revenues $" + "1,234,567" + " and other income"
    ensures MatchElement(Word("total"), text, 0) == Some(5)
    ensures MatchElement(Word("revenue"), text, 6) == Some(13)
    ensures MatchElement(Word("$"), text, 15) == Some(16)
  {
    assert WordAt("total", text, 0);
    assert WordAt("revenue", text, 6);
    assert WordAt("$", text, 15);
  }

  lemma TotalRevenuesGaps(text: string)
    requires text == "Total revenues $" + "1,234,567" + " and other income"
    ensures MatchElement(Spaces, text, 5) == Some(6)
    ensures MatchElement(Maybe('s'), text, 13) == Some(14)
    ensures MatchElement(Spaces, text, 14) == Some(15)
    ensures MatchElement(OptSpaces, text, 16) == Some(16)
  {
    assert text[5] == ' ' && text[6] == 'r';
    OneSpace(text, 5);
    assert text[13] == 's';
    assert text[14] == ' ' && text[15] == '$';
    OneSpace(text, 14);
    assert text[16] == '1';
    NoSpace(text, 16);
  }

  /** `total\s+revenues?\s+\$\s*` runs through "Total revenues $" in
      "Total revenues $1,234,567 and other income". */
  lemma TotalRevenuesLead(text: string, lead: seq<Element>)
    requires text == "Total revenues $" + "1,234,567" + " and other income" && lead == RevenuePatterns[0].lead
    ensures MatchLead(lead, text, 0) == Some(16)
  {
    TotalRevenuesWords(text);
    TotalRevenuesGaps(text);
    var pos: seq<nat> := [0, 5, 6, 13, 14, 15, 16, 16];
    MatchLeadSteps(lead, text, pos);
  }

  lemma TotalRevenuesAmount(text: string)
    requires text == "Total revenues $" + "1,234,567" + " and other income"
    ensures MatchAmount(text, 16) == Some(25)
    ensures text[16..25] == "1,234,567"
  {
    assert forall l | 16 <= l < 25 :: InClass(AmountClass, text[l]);
    assert !InClass(AmountClass, text[25]) && text[25] != '(';
    MatchAmountRun(text, 16, 25);
  }

  lemma TotalRevenuesMatch(text: string)
    requires text == "Total revenues $" + "1,234,567" + " and other income"
    ensures LeftmostFrom(RevenuePatterns[0], text, 0, 0)
    ensures CaptureAt(RevenuePatterns[0], text, 0) == "1,234,567"
  {
    TotalRevenuesLead(text, RevenuePatterns[0].lead);
    TotalRevenuesAmount(text);
  }

  lemma TotalRevenuesOffer(text: string, d: string)
    requires text == "Total revenues $" + "1,234,567" + " and other income" && d == "1234567"
    ensures Offer(text, MatcherOf(RevenuePatterns[0])) == d
  {
    var p := RevenuePatterns[0];
    TotalRevenuesMatch(text);
    assert FindAll(p, text)[0] == [CaptureAt(p, text, 0)];
    CleanGroupedOnly(CaptureAt(p, text, 0), d);
  }

  /** The success test: "Total revenues $1,234,567 and other income" gives
      `1234567`. The test's pattern lacks the parenthesised suffix of the
      table pattern used here; on this text no `(` follows the digits, so
      both capture the same run. */
  lemma TotalRevenuesFound(text: string, d: string)
    requires text == "Total revenues $" + "1,234,567" + " and other income" && d == "1234567"
    ensures ExtractValue(text, [MatcherOf(RevenuePatterns[0])]) == d
  {
    TotalRevenuesOffer(text, d);
  }

  /** The no-match test: in "No financial data here" the only `r` is too
      close to the end for `revenue` to fit, so the generic revenue pattern
      (the test's pattern with the parenthesised suffix added, which cannot
      matter when nothing matches) finds nothing. */
  lemma NoFinancialData(text: string)
    requires text == "No financial data here"
    ensures ExtractValue(text, [MatcherOf(RevenuePatterns[3])]) == ""
  {
    var p := RevenuePatterns[3];
    assert p.lead[0].w[0] == 'r';
    assert forall i | 0 <= i < 20 :: !SameIgnoringCase(text[i], 'r');
    NoMatchWithoutKeyword(p, text, 0, 20);
    assert MatchElement(p.lead[0], text, 20) == None;
    assert !MatchesAt(p, text, 20);
    assert forall i | 21 <= i < |text| :: !SameIgnoringCase(text[i], 'r');
    NoMatchWithoutKeyword(p, text, 21, |text| + 1);
    NoOfferWithoutMatch(p, text);
  }

  /** The negative-value test: its pattern `operating\s+loss[:\s]*\$?\(([0-9,]+)\)`
      captures "123,456" inside the parentheses of "$(123,456)", and the
      value extracted is the unsigned `123456`. The pattern is given by the
      capture it makes on that text. */
  lemma OperatingLossCapture(text: string, v: string, d: string)
    requires v == "123,456" && d == "123456"
    ensures ExtractValue(text, [Constant([[v]])]) == d
  {
    CleanThousands(v, d);
    var m := Constant([[v]]);
    assert Captured(m(text)[0]) == v;
  }

  lemma GroupedThousands(d: string)
    requires d == "123456"
    ensures Grouped(d) == "123,456"
  {
    assert d[..3] == "123" && d[3..] == "456";
  }

  lemma CleanThousands(v: string, d: string)
    requires v == "123,456" && d == "123456"
    ensures Clean(v) == d
  {
    GroupedThousands(d);
    CleanRender(d, Plain);
    assert Render(d, Plain) == v;
  }

  /** The two-pattern table of the multiple-patterns test: the qualified
      `total revenues` pattern finds nothing, the generic one supplies the value. The
      test's patterns lack the parenthesised suffix of the table patterns
      used here; this text has no `(`, so the suffix cannot take part. */
  lemma SecondPatternSupplies(text: string, d: string)
    requires text == "Revenue: $1,234,567" && d == "1234567"
    ensures ExtractValue(text, [MatcherOf(RevenuePatterns[0]), MatcherOf(RevenuePatterns[3])]) == d
  {
    QualifiedRevenueAbsent(text);
    GenericRevenueOffer(text, d);
  }
}

=== FILE: selection.dfy ===
/** The ordered pattern-table search (backend/core/views.py,
    `extract_value_with_patterns`). A pattern is abstracted as a matcher: a
    function from the text to the list `re.findall` would return, in document
    order, each match given as its capture groups. */
module Selection {
  import opened Cleaner

  /** The groups of one match. `re.findall` yields a plain string for a
      single-group pattern and a tuple for several groups; both are a
      non-empty list of group texts here. */
  type Groups = g: seq<string> | |g| > 0 witness [""]

  type Matcher = string -> seq<Groups>

  /** The value a match contributes: its last group (for a single group,
      that group). */
  function Captured(g: Groups): string {
    g[|g| - 1]
  }

  /** What one pattern offers: the cleaned capture of its first match only,
      or `""` when it does not match or its first capture does not clean. */
  function Offer(text: string, m: Matcher): (v: string)
    ensures v == "" || IsDecimal(v)
  {
    var matches := m(text);
    if |matches| == 0 then "" else Clean(Captured(matches[0]))
  }

  /** What each pattern of the table offers, in table order. */
  function Offers(text: string, table: seq<Matcher>): (offers: seq<string>)
    ensures |offers| == |table|
    ensures forall i | 0 <= i < |table| :: offers[i] == Offer(text, table[i])
  {
    seq(|table|, i requires 0 <= i < |table| => Offer(text, table[i]))
  }

  /** Offer `k` is the first non-empty one. */
  ghost predicate FirstAt(offers: seq<string>, k: int) {
    && 0 <= k < |offers|
    && offers[k] != ""
    && forall j | 0 <= j < k :: offers[j] == ""
  }

  /** The selection rule on the offers alone: the first non-empty offer,
      `""` when every offer is empty. */
  function FirstOffer(offers: seq<string>): (r: string)
    ensures r == "" <==> forall i | 0 <= i < |offers| :: offers[i] == ""
    ensures forall k | FirstAt(offers, k) :: r == offers[k]
    ensures r != "" ==> exists k :: FirstAt(offers, k)
    decreases |offers|
  {
    if |offers| == 0 then ""
    else if offers[0] != "" then
      assert FirstAt(offers, 0);
      offers[0]
    else
      var r := FirstOffer(offers[1..]);
      assert forall k | FirstAt(offers[1..], k) :: FirstAt(offers, k + 1);
      assert forall k | FirstAt(offers, k) :: k > 0 && FirstAt(offers[1..], k - 1);
      r
  }

  /** The first pattern, in table order, whose first match cleans to a
      number wins; `""` when none does. Written as the recursion the loop
      of `extract_value_with_patterns` unrolls to. */
  function ExtractValue(text: string, table: seq<Matcher>): (r: string)
    ensures r == FirstOffer(Offers(text, table))
    ensures r == "" || IsDecimal(r)
    decreases |table|
  {
    if |table| == 0 then ""
    else
      var v := Offer(text, table[0]);
      if v != "" then v
      else
        assert Offers(text, table)[1..] == Offers(text, table[1..]);
        ExtractValue(text, table[1..])
  }

  /** The search returns the offer of pattern `k` exactly when every earlier
      pattern offers nothing and pattern `k` offers a value. */
  lemma ExtractValueAt(text: string, table: seq<Matcher>, k: nat)
    requires k < |table|
    requires forall j | 0 <= j < k :: Offer(text, table[j]) == ""
    requires Offer(text, table[k]) != ""
    ensures ExtractValue(text, table) == Offer(text, table[k])
  {
    assert FirstAt(Offers(text, table), k);
  }

  /** The loop of `extract_value_with_patterns`, with its early return. */
  method ExtractValueWithPatterns(text: string, patterns: seq<Matcher>) returns (value: string)
    ensures value == ExtractValue(text, patterns)
  {
    for i := 0 to |patterns|
      invariant ExtractValue(text, patterns[i..]) == ExtractValue(text, patterns)
    {
      var matches := patterns[i](text);
      assert patterns[i..][1..] == patterns[i + 1..];
      if |matches| > 0 {
        var cleaned := Clean(Captured(matches[0]));
        if cleaned != "" {
          return cleaned;
        }
      }
    }
    assert patterns[|patterns|..] == [];
    return "";
  }

  /** Table order strictly dominates: a later table is consulted only when
      the earlier one yields nothing. */
  lemma {:induction false} ExtractValueAppend(text: string, t1: seq<Matcher>, t2: seq<Matcher>)
    ensures ExtractValue(text, t1 + t2) ==
      if ExtractValue(text, t1) != "" then ExtractValue(text, t1) else ExtractValue(text, t2)
    decreases |t1|
  {
    if |t1| != 0 {
      assert (t1 + t2)[0] == t1[0];
      assert (t1 + t2)[1..] == t1[1..] + t2;
      ExtractValueAppend(text, t1[1..], t2);
    } else {
      assert t1 + t2 == t2;
    }
  }

  /** `m` cut down to its first match. */
  function FirstOnly(m: Matcher): (m': Matcher) {
    (text: string) => var ms := m(text); if |ms| == 0 then [] else [ms[0]]
  }

  function FirstOnlyAll(table: seq<Matcher>): (t: seq<Matcher>)
    ensures |t| == |table|
    ensures forall i | 0 <= i < |table| :: t[i] == FirstOnly(table[i])
  {
    seq(|table|, i requires 0 <= i < |table| => FirstOnly(table[i]))
  }

  /** Only the first match of each pattern is ever looked at: discarding
      every later match changes nothing. */
  lemma {:induction false} LaterMatchesIgnored(text: string, table: seq<Matcher>)
    ensures ExtractValue(text, FirstOnlyAll(table)) == ExtractValue(text, table)
    decreases |table|
  {
    if |table| != 0 {
      var t := FirstOnlyAll(table);
      assert Offer(text, t[0]) == Offer(text, table[0]);
      assert t[1..] == FirstOnlyAll(table[1..]);
      LaterMatchesIgnored(text, table[1..]);
    }
  }
}

=== FILE: strings.dfy ===
/** Character-level string helpers: the two shapes of Python's `str.replace`
    that the extractor uses with a one-character `old` argument (substitute a
    single character, or delete it), and the digit projection used to state
    what the value cleaner preserves. */
module Strings {

  predicate IsDigit(c: char) {
    '0' <= c <= '9'
  }

  predicate AllDigits(s: string) {
    forall i | 0 <= i < |s| :: IsDigit(s[i])
  }

  /** `s.replace(a, b)` where both `a` and `b` are single characters. */
  function MapChar(s: string, a: char, b: char): (r: string)
    ensures |r| == |s|
    ensures forall i | 0 <= i < |s| :: r[i] == (if s[i] == a then b else s[i])
  {
    if |s| == 0 then [] else [if s[0] == a then b else s[0]] + MapChar(s[1..], a, b)
  }

  /** `s.replace(a, '')`: every occurrence of `a` removed, all other characters kept. */
  function DeleteChar(s: string, a: char): (r: string)
    ensures a !in r
    ensures |r| <= |s|
    ensures forall c :: c in r <==> c in s && c != a
    ensures a !in s ==> r == s
  {
    if |s| == 0 then []
    else
      assert s == [s[0]] + s[1..];
      (if s[0] == a then [] else [s[0]]) + DeleteChar(s[1..], a)
  }

  /** The decimal digits of `s`, in order. */
  function Digits(s: string): (r: string)
    ensures AllDigits(r)
    ensures forall c :: c in r <==> c in s && IsDigit(c)
    ensures AllDigits(s) ==> r == s
  {
    if |s| == 0 then []
    else
      assert s == [s[0]] + s[1..];
      (if IsDigit(s[0]) then [s[0]] else []) + Digits(s[1..])
  }

  lemma {:induction false} MapCharAppend(s: string, t: string, a: char, b: char)
    ensures MapChar(s + t, a, b) == MapChar(s, a, b) + MapChar(t, a, b)
  {
    // MapChar is characterised pointwise, so the two sides agree index by index
  }

  lemma {:induction false} DeleteCharAppend(s: string, t: string, a: char)
    ensures DeleteChar(s + t, a) == DeleteChar(s, a) + DeleteChar(t, a)
  {
    if |s| == 0 {
      assert s + t == t;
    } else {
      assert (s + t)[1..] == s[1..] + t;
      DeleteCharAppend(s[1..], t, a);
    }
  }

  lemma {:induction false} DigitsAppend(s: string, t: string)
    ensures Digits(s + t) == Digits(s) + Digits(t)
  {
    if |s| == 0 {
      assert s + t == t;
    } else {
      assert (s + t)[1..] == s[1..] + t;
      DigitsAppend(s[1..], t);
    }
  }

  /** Deleting a character that is not a digit leaves the digits untouched. */
  lemma {:induction false} DigitsDeleteChar(s: string, a: char)
    requires !IsDigit(a)
    ensures Digits(DeleteChar(s, a)) == Digits(s)
  {
    if |s| != 0 {
      DigitsDeleteChar(s[1..], a);
      var head := if s[0] == a then [] else [s[0]];
      DigitsAppend(head, DeleteChar(s[1..], a));
    }
  }
}
